=== FILE: README.md ===
# micro-api request router, modelled in Dafny

micro-api turns a list of route definitions `{ method, path, handler }` into a
request function for the `micro` HTTP server. For each request the function
looks up the first route whose method and path pattern match. In the current
version a miss is answered with 404. On a hit it parses the JSON body (falling back to `{}`), calls the
handler with `{ req, res, body, params, headers }`, and maps what the handler
returns or throws to one response: 200 with a truthy value, the same 404 for a
falsy one, and an error response for a throw.

The repository holds two versions, and both are modelled:

- `src/index.js` is the current one: `configureRouter` compiles the routes and
  provides `lookup`, and `microApi` is the request function. A handler's throw
  of anything but null or undefined is answered with `statusCode || 500` and
  `{ message, stack, code }`.
- `index.js` is the older one. It registers each route under a generated id
  and delegates lookup to the `uniloc` router. When uniloc finds no route,
  reading `route.name` throws before the `try`, so the request function rejects
  and sends nothing. A registered handler that is missing or falsy gets the 404.
  A handler's throw of anything but null or undefined is answered with 500 and
  `{ message }`, where `message` is the thrown value itself when that is a
  string.

Modules:

- `Wrappers`: `Option`.
- `Ascii`: `toUpperCase` on ASCII strings, with idempotence.
- `Js`: JavaScript values (`Value`), truthiness, property reads that can throw
  a TypeError, and `||`.
- `Http`: the request, the handler context, the handler outcome, the single
  effect a request ends with, `sendPageNotFound`, the body fallback, and the
  mapping of a finished handler call, which both versions share.
- `Router`: route compilation and first-match lookup from `src/index.js`.
- `Api`: the request function of `src/index.js`.
- `Scenarios`: worked scenarios from the test suite of `src/index.js`.
- `Legacy`: the registration loop and request function of `index.js`.

Inputs standing for code outside the model:

- The path-pattern library (`path-match`) is a parameter `pm: (pattern, url) -> Option<Params>`.
  A compiled route keeps its `path`, and the matcher it carries is `pm(path, ·)`.
- The `uniloc` router is a parameter `locate` that takes the route strings, the
  url and the method and returns None when no route matches, and
  `Some(Located(name, options))` otherwise.
- Truthiness of a registered handler in `index.js` is a parameter
  `present: H -> bool`.
- The handler's code is a parameter `call: (H, Context) -> Outcome`.
  `call(handler, ctx)` is how the awaited `handler(ctx)` finishes: it returns a
  value or throws one.
- The body parse `json(req)` is a parameter `parsed: Option<Value>`, which is
  None when it throws.

A request's run is a `Trace`. It records the context the handler was invoked
with, if any, and exactly one `Effect`: one `send(res, status, body)`, or
`Rejected` when the request function itself throws. In both versions that
happens when the handler threw `null` or `undefined`, because destructuring
them (or reading `.message` in `index.js`) raises a TypeError inside the
`catch`. In `index.js` it also happens when uniloc finds no route.

Behaviours worth noting:

- A bare thrown string: under `src/index.js` it is answered with 500 and an
  undefined `message`, because the destructuring reads `message` of a string.
  Only `index.js` uses the string as the message.
- `src/index.js` always puts `stack` in the error body. There is no
  deployment-mode switch.
- A thrown error whose `statusCode` is 200 is answered with status 200.
- The root `test.js` expects a 404 message `Page not found (GET): /fuff` and
  passes positional `(body, params)` arguments to handlers. `index.js` does
  neither, and the model follows `index.js`.

## Model

| member | source | states |
|---|---|---|
| Ascii.ToUpper | src/index.js:11 | `toUpperCase` keeps the length, upper-cases each character, and returns an upper-case string |
| Ascii.UpperIsFixed | src/index.js:17 | upper-casing a method that is already upper case leaves it unchanged |
| Ascii.ToUpperIdempotent | src/index.js:17 | upper-casing twice is the same as upper-casing once |
| Ascii.ToUpperIgnoresCase | src/index.js:16-22 | two methods that differ only in ASCII letter case upper-case to the same string |
| Js.FalsyValues | src/index.js:79 | the falsy values are exactly undefined, null, false, 0 and `""`; every object and array is truthy |
| Js.Get | src/index.js:86 | reading a property throws exactly on null/undefined; on an object it gives the own property when present and undefined otherwise; on any other value it gives undefined |
| Js.Or | src/index.js:87 | `a \|\| b` is truthy iff either operand is; it is `a` when `a` is truthy and `b` otherwise |
| Http.NotFoundMessage | index.js:6 | the message is the raw request method, a space, the url, then ` not found` |
| Http.NotFound | src/index.js:45-49 | the not-found answer is status 404 with a body holding only that message |
| Http.RequestBody | src/index.js:62-68 | the handler's body is the parsed JSON, or `{}` when parsing failed |
| Http.Settle | src/index.js:78-89 | a truthy result gives 200 with the value unchanged, a falsy result the same 404 as a routing miss, and a throw goes to the version's error mapping |
| Router.Compile | src/index.js:9-14 | compilation keeps the count and order, upper-cases every method, and leaves path and handler unchanged |
| Router.FirstMatchUnique | src/index.js:21-27 | at most one route is the first one that accepts a request |
| Router.Scan | src/index.js:21-27 | the search returns the first accepting route at or after its start, with that route's params; it returns nothing iff none accepts |
| Router.Lookup | src/index.js:16-34 | lookup returns the first route in declaration order with the upper-cased method whose matcher accepts the url, carrying exactly that matcher's params; it returns nothing iff no route passes both checks, including for an empty table |
| Router.FindRoute | src/index.js:19-33 | the `routes.find` loop returns the same result as `Lookup` |
| Router.LookupIgnoresCase | src/index.js:16-17 | `lookup(url, m)` equals `lookup(url, toUpperCase(m))` |
| Router.LookupCompiled | src/index.js:6-34 | on a compiled table, definition i is chosen iff its method equals the request's up to case, its pattern accepts the url, and no earlier definition does both |
| Router.ShadowedRouteNeverMatches | src/index.js:21-27 | of two definitions with the same method up to case and the same pattern, the later one is never chosen |
| Api.ErrorResponse | src/index.js:85-89 | a thrown value gives status `statusCode` if that is truthy and 500 otherwise, so the status is always truthy; the body is exactly `{message, stack, code}` with `code` equal to the status; it rejects iff the thrown value is null or undefined |
| Api.Respond | src/index.js:54-91 | the handler is invoked iff lookup found a route, with the parsed body or `{}`, the match's params and the request headers; the answer is the not-found 404 iff the lookup missed or the result is falsy, a rejection iff the handler threw null or undefined, 200 with the value itself for a truthy result, and the error response for any other throw |
| Api.Handle | src/index.js:54-59 | one request against a compiled table: the handler is invoked iff some route accepts the request under the upper-cased method, with the parsed body or `{}` and the request headers; otherwise the answer is the routing-miss 404 (the rest of its behaviour is stated by `HandlerContext`, `NotFoundIff`, `SuccessIff` and `RejectedIff`) |
| Api.Serve | src/index.js:51-91 | `microApi(routes)` on one request: the handler is invoked iff some definition's method equals the request method up to case and its pattern accepts the url; otherwise the answer is the routing-miss 404. When invoked, the context holds the first such definition's matcher params, the parsed body or `{}` and the request headers, and the answer is that definition's handler outcome settled with the 500-or-`statusCode` error policy |
| Api.MissIsNotFound | src/index.js:55-59 | when no route accepts the request, the handler is not invoked and the answer is the 404 |
| Api.HandlerContext | src/index.js:55-90 | the handler is invoked iff some route accepts the request; then it is the handler of the first accepting route, called with the parsed body or `{}`, the request headers and that route's matcher params, and its outcome decides the answer |
| Api.NotFoundIff | src/index.js:55-90 | the answer is the not-found 404 iff no route accepts or the handler returned a falsy value; a thrown error never produces it |
| Api.SuccessIff | src/index.js:78-89 | status 200 occurs iff the handler returned a truthy value (then sent verbatim) or threw an error whose `statusCode` is 200 |
| Api.RejectedIff | src/index.js:85-89 | the request function fails to send a response iff the handler threw null or undefined |
| Api.FailureCarriesMessage | src/index.js:45-89 | every response other than a handler's own value is an object with a `message` key (whose value can be undefined, which JSON encoding then drops) |
| Api.ThrownStringLosesMessage | src/index.js:86-89 | a thrown bare string is answered with 500, code 500 and an undefined message and stack |
| Scenarios.FoosCompiled | src/test.js:20-31 | the method-routing table compiles to POST then GET on `/foos`, each with its own handler |
| Scenarios.RoutesByMethod | src/test.js:19-47 | with POST and GET routes on `/foos`, a GET request gets the GET route's value with status 200 and a POST request the POST route's value, whatever the letter case of the method |
| Scenarios.EmptyTableNotFound | src/test.js:152-163 | an empty table answers `GET /fuff` with 404 and `GET /fuff not found`, without invoking a handler |
| Scenarios.ParamsPassedThrough | src/test.js:132-150 | a `GET /foos/:fooId` route whose handler returns its params answers `GET /foos/1` with 200 and `{ fooId: "1" }`, when the matcher captures `1` |
| Scenarios.NothingReturnedIsNotFound | src/test.js:184-199 | a handler returning nothing for `GET /baz` gives 404 with `GET /baz not found` |
| Scenarios.BrokenRoute | src/test.js:165-182 | `throw new Error("Broken!")` gives status 500, code 500 and message `Broken!` |
| Scenarios.CustomStatusCode | src/test.js:201-219 | an error with `statusCode = 400` gives status 400 and keeps its message |
| Legacy.RouteString | index.js:16-19 | the route string is the upper-cased method, a space, then the path |
| Legacy.Register | index.js:14-26 | each config is registered under its own id, which is its position: its route string and its handler share that id, and no other ids exist |
| Legacy.HandlerOf | index.js:32-34 | a handler is found iff one is registered under the located name and it is truthy, and then it is that registered handler |
| Legacy.ErrorResponse | index.js:60-64 | any thrown value gives status 500 with a body holding only `message`: the value itself if it is a string, else its `message`; it rejects iff the value is null or undefined |
| Legacy.Respond | index.js:30-65 | when uniloc finds nothing the request function rejects without sending; otherwise the handler is invoked iff a truthy one is registered under the found name, with the parsed body or `{}`, uniloc's options and the headers; the answer is the 404 iff the handler is missing or the result falsy, 500 with a body holding only `message` (as `ErrorResponse` builds it) iff the handler threw something other than null or undefined, 200 with the value for a truthy result, and only these three statuses occur |
| Legacy.Serve | index.js:10-66 | with the registered route strings given to uniloc, a miss rejects; the handler of config i is invoked iff uniloc names id i and that handler is truthy, with the parsed body or `{}`, uniloc's options and the headers; a found name without a handler gets the 404 |
| Legacy.StatusCodeIgnored | index.js:60-64 | an error carrying `statusCode` and `stack` still gives 500, and only its message is sent |
| Legacy.AgreesWithCurrent | index.js:30-65 | when both dispatchers reach the same handler with the same params, they give the same context and reject in the same cases; their answers differ only for a thrown value, where this version sends 500 |
| Legacy.MissRejectsUnlikeCurrent | index.js:31-34 | on a routing miss this version rejects without sending anything, where the current one answers the 404 |

## Left out

- Path matching: `path-match` and `uniloc` are not part of this model. Segment
  rules, URL decoding and query strings are inside the `pm` and `locate`
  parameters.
- Route construction can throw: in `path-match` or `uniloc` when a pattern or
  route string is malformed, and at `route.method.toUpperCase()`
  (src/index.js:11, index.js:16) when a definition has no string `method`. The
  model types every method as a string and treats construction as total.
- A throwing matcher: `pm` is total in the model, but the route's matcher runs
  inside `lookup`, before the `try` of the request function (src/index.js:25,
  src/index.js:55). A matcher that throws, say on a malformed percent-escape in
  the url, would make the request function reject; the model has no such case.
- HTTP I/O and async: `micro`'s `json` and `send`, listening, and the
  scheduling of `await` are left out. Body parsing and handler outcomes are
  inputs.
- `send` throwing inside the `try` would let the `catch` send a second
  response. The model assumes `send` never throws.
- Debug logging (`debug`, `console.error`, `NODE_ENV`) is a side effect only.
- The `req` and `res` handles in the handler context are opaque and are not
  part of `Context`. The header-echo test relies on them and is I/O.
- `uuid` ids are randomness. They are replaced by list positions, which are
  just as pairwise distinct.
- JSON serialisation by `send`, which drops `undefined` fields such as an
  absent `message`, is left out. Bodies are kept as JavaScript values.
- What happens after a rejection (the `micro` server's own error answer) is
  outside the router.
- Ascii.ToUpper: only ASCII letters are upper-cased. JavaScript's
  `toUpperCase` also maps non-ASCII letters (`ß` to `SS`, for example), which
  never occur in HTTP method names.
- Js.FalsyValues: numbers are integers, so `NaN`, `-0` and fractions are not
  modelled.
- Js.Get: only for property names that no primitive or array prototype
  defines (`message`, `stack`, `statusCode`). Error objects are objects whose
  own properties include these names.
- `example.js` is user handler code with shared mutable state, outside the
  router's contract.

=== FILE: api.dfy ===
/**
 The request function returned by `microApi` (src/index.js): look the request
 up, answer 404 on a miss, otherwise parse the body (falling back to `{}`),
 invoke the handler with `{ body, params, headers }`, and map what it returns
 or throws to one response. The exception is a handler that throws null or
 undefined: destructuring it in the `catch` throws again, and the request
 function rejects without sending anything.

 The handler's code is the parameter `call`: `call(handler, ctx)` is how the
 awaited call `handler(ctx)` finishes. The body parse `json(req)` is the
 parameter `parsed` (None when it throws).
 */
module Api {
  import opened Wrappers
  import opened Js
  import opened Http
  import opened Router

  /**
   The `catch` block: `const { message, stack, statusCode } = error`, status
   `statusCode || 500`, body `{ message, stack, code }`. Destructuring a thrown
   null or undefined throws again, so the request function rejects instead.
   */
  function ErrorResponse(error: Value): (e: Effect)
    ensures e.Rejected? <==> IsNullish(error)
    ensures e.Send? ==>
      && Truthy(e.status)
      && (Truthy(Get(error, "statusCode").value) ==> e.status == Get(error, "statusCode").value)
      && (!Truthy(Get(error, "statusCode").value) ==> e.status == Num(500))
      && e.body.Obj?
      && e.body.fields.Keys == {"message", "stack", "code"}
      && e.body.fields["code"] == e.status
      && e.body.fields["message"] == Get(error, "message").value
      && e.body.fields["stack"] == Get(error, "stack").value
  {
    match (Get(error, "message"), Get(error, "stack"), Get(error, "statusCode"))
    case (Some(message), Some(stack), Some(statusCode)) =>
      var code := Or(statusCode, Num(500));
      Send(code, Obj(map["message" := message, "stack" := stack, "code" := code]))
    case _ => Rejected
  }

  /**
   The request function, given the lookup result. The handler is invoked exactly
   when the lookup found a route, once, with the parsed body (or `{}`), the
   match's params and the request headers. The answer is the routing-miss 404
   exactly on a miss or a falsy result, a rejection exactly when the handler
   threw null or undefined, 200 with the value itself for a truthy result, and
   the error response for any other throw.
   */
  function Respond<H>(req: Request, found: Option<Match<H>>, parsed: Option<Value>, call: (H, Context) -> Outcome): (t: Trace)
    ensures t.invoked.Some? <==> found.Some?
    ensures found.Some? ==> t.invoked == Some(Context(RequestBody(parsed), found.value.params, req.headers))
    ensures t.effect == NotFound(req) <==>
      found.None? || (var o := call(found.value.route.handler, t.invoked.value); o.Returned? && !Truthy(o.value))
    ensures t.effect.Rejected? <==>
      found.Some? && (var o := call(found.value.route.handler, t.invoked.value); o.Threw? && IsNullish(o.error))
    ensures found.Some? ==>
      var o := call(found.value.route.handler, t.invoked.value);
      && (o.Returned? && Truthy(o.value) ==> t.effect == Send(Num(200), o.value))
      && (o.Threw? ==> t.effect == ErrorResponse(o.error))
  {
    match found
    case None => Trace(None, NotFound(req))
    case Some(m) =>
      var ctx := Context(RequestBody(parsed), m.params, req.headers);
      var o := call(m.route.handler, ctx);
      assert o.Threw? && ErrorResponse(o.error).Send? ==> "code" in ErrorResponse(o.error).body.fields;
      Trace(Some(ctx), Settle(req, o, ErrorResponse))
  }

  /**
   One request against a compiled table: `lookup(req.url, req.method)`, then
   `Respond`. The handler is invoked exactly when some route accepts the
   request; otherwise the answer is the routing-miss 404.
   */
  function Handle<H>(routes: seq<Route<H>>, pm: PathMatcher, req: Request, parsed: Option<Value>, call: (H, Context) -> Outcome): (t: Trace)
    ensures t.invoked.Some? <==> exists j :: 0 <= j < |routes| && Accepts(routes[j], pm, req.url, Ascii.ToUpper(req.verb))
    ensures t.invoked.None? ==> t.effect == NotFound(req)
    ensures t.invoked.Some? ==> t.invoked.value.body == RequestBody(parsed) && t.invoked.value.headers == req.headers
  {
    var found := Lookup(routes, pm, req.url, req.verb);
    assert found.Some? ==> Accepts(routes[found.value.index], pm, req.url, Ascii.ToUpper(req.verb));
    Respond(req, found, parsed, call)
  }

  /**
   `microApi(routes)` applied to one request. The handler is invoked exactly
   when some definition's method equals the request method up to ASCII case and
   its pattern accepts the url; otherwise the answer is the routing-miss 404.
   The handler invoked is that of the first such definition, with that
   definition's matcher params, the parsed body (or `{}`) and the request
   headers, and what it returns or throws settles the answer.
   */
  function Serve<H>(defs: seq<RouteDef<H>>, pm: PathMatcher, req: Request, parsed: Option<Value>, call: (H, Context) -> Outcome): (t: Trace)
    ensures t.invoked.Some? <==>
      (exists j :: 0 <= j < |defs| && Ascii.ToUpper(defs[j].verb) == Ascii.ToUpper(req.verb) && pm(defs[j].path, req.url).Some?)
    ensures t.invoked.None? ==> t.effect == NotFound(req)
    ensures t.invoked.Some? ==>
      && t.invoked.value.body == RequestBody(parsed)
      && t.invoked.value.headers == req.headers
      && exists i :: 0 <= i < |defs|
           && Ascii.ToUpper(defs[i].verb) == Ascii.ToUpper(req.verb)
           && pm(defs[i].path, req.url) == Some(t.invoked.value.params)
           && (forall j :: 0 <= j < i ==> Ascii.ToUpper(defs[j].verb) != Ascii.ToUpper(req.verb) || pm(defs[j].path, req.url).None?)
           && t.effect == Settle(req, call(defs[i].handler, t.invoked.value), ErrorResponse)
  {
    var routes := Compile(defs);
    assert forall j :: 0 <= j < |defs| ==>
      (Accepts(routes[j], pm, req.url, Ascii.ToUpper(req.verb)) <==>
       Ascii.ToUpper(defs[j].verb) == Ascii.ToUpper(req.verb) && pm(defs[j].path, req.url).Some?);
    var found := Lookup(routes, pm, req.url, req.verb);
    assert found.Some? ==> Accepts(routes[found.value.index], pm, req.url, Ascii.ToUpper(req.verb));
    Handle(routes, pm, req, parsed, call)
  }

  /** The outcome of the handler invocation a request leads to, when it leads to one. */
  function HandlerOutcome<H>(routes: seq<Route<H>>, pm: PathMatcher, req: Request, parsed: Option<Value>, call: (H, Context) -> Outcome): Option<Outcome> {
    match Lookup(routes, pm, req.url, req.verb)
    case None => None
    case Some(m) => Some(call(m.route.handler, Context(RequestBody(parsed), m.params, req.headers)))
  }

  /** On a routing miss the handler is never invoked and the answer is the 404. */
  lemma MissIsNotFound<H>(routes: seq<Route<H>>, pm: PathMatcher, req: Request, parsed: Option<Value>, call: (H, Context) -> Outcome)
    requires forall j :: 0 <= j < |routes| ==> !Accepts(routes[j], pm, req.url, Ascii.ToUpper(req.verb))
    ensures Handle(routes, pm, req, parsed, call) == Trace(None, NotFound(req))
  {
  }

  /**
   The handler is invoked exactly when some route accepts the request, and then
   it is the first such route's handler, with the parsed body (or `{}`), that
   route's params and the request's headers; what it does decides the answer.
   */
  lemma HandlerContext<H>(routes: seq<Route<H>>, pm: PathMatcher, req: Request, parsed: Option<Value>, call: (H, Context) -> Outcome)
    ensures var t := Handle(routes, pm, req, parsed, call);
      var verb := Ascii.ToUpper(req.verb);
      && (t.invoked.Some? <==> exists j :: 0 <= j < |routes| && Accepts(routes[j], pm, req.url, verb))
      && (t.invoked.Some? ==>
            && t.invoked.value.body == (if parsed.Some? then parsed.value else Obj(map[]))
            && t.invoked.value.headers == req.headers
            && exists i :: 0 <= i < |routes| && Accepts(routes[i], pm, req.url, verb)
                 && (forall j :: 0 <= j < i ==> !Accepts(routes[j], pm, req.url, verb))
                 && pm(routes[i].path, req.url) == Some(t.invoked.value.params)
                 && t.effect == Settle(req, call(routes[i].handler, t.invoked.value), ErrorResponse))
  {
    var res := Lookup(routes, pm, req.url, req.verb);
    if res.Some? {
      var i := res.value.index;
      assert Accepts(routes[i], pm, req.url, Ascii.ToUpper(req.verb));
    }
  }

  /**
   The answer is the 404 of a routing miss exactly when no route accepts the
   request or the handler returned a falsy value; a thrown error never looks
   like it, since its body also carries `stack` and `code`.
   */
  lemma NotFoundIff<H>(routes: seq<Route<H>>, pm: PathMatcher, req: Request, parsed: Option<Value>, call: (H, Context) -> Outcome)
    ensures var o := HandlerOutcome(routes, pm, req, parsed, call);
      Handle(routes, pm, req, parsed, call).effect == NotFound(req) <==>
        o.None? || (o.value.Returned? && !Truthy(o.value.value))
  {
    var o := HandlerOutcome(routes, pm, req, parsed, call);
    if o.Some? && o.value.Threw? {
      var e := ErrorResponse(o.value.error);
      assert e.Send? ==> "code" in e.body.fields;
      assert "code" !in NotFound(req).body.fields;
    }
  }

  /**
   Status 200 comes from a truthy handler result, sent verbatim, or from a thrown
   error whose `statusCode` is 200.
   */
  lemma SuccessIff<H>(routes: seq<Route<H>>, pm: PathMatcher, req: Request, parsed: Option<Value>, call: (H, Context) -> Outcome)
    ensures var o := HandlerOutcome(routes, pm, req, parsed, call);
      var e := Handle(routes, pm, req, parsed, call).effect;
      && (e.Send? && e.status == Num(200) <==>
            o.Some? && ((o.value.Returned? && Truthy(o.value.value)) ||
                        (o.value.Threw? && Get(o.value.error, "statusCode") == Some(Num(200)))))
      && (o.Some? && o.value.Returned? && Truthy(o.value.value) ==> e.body == o.value.value)
  {
  }

  /**
   The request function ends with exactly one `send`, except when the handler
   threw null or undefined, where it rejects.
   */
  lemma RejectedIff<H>(routes: seq<Route<H>>, pm: PathMatcher, req: Request, parsed: Option<Value>, call: (H, Context) -> Outcome)
    ensures var o := HandlerOutcome(routes, pm, req, parsed, call);
      Handle(routes, pm, req, parsed, call).effect.Rejected? <==>
        o.Some? && o.value.Threw? && IsNullish(o.value.error)
  {
  }

  /**
   Every answer other than a handler's own value is an object with a `message`
   key. That key can hold undefined (a thrown string, or an error without a
   message), and `send`'s JSON encoding then drops it from the wire body.
   */
  lemma FailureCarriesMessage<H>(routes: seq<Route<H>>, pm: PathMatcher, req: Request, parsed: Option<Value>, call: (H, Context) -> Outcome)
    ensures var o := HandlerOutcome(routes, pm, req, parsed, call);
      var e := Handle(routes, pm, req, parsed, call).effect;
      e.Send? && !(o.Some? && o.value.Returned? && Truthy(o.value.value)) ==>
        e.body.Obj? && "message" in e.body.fields
  {
  }

  /**
   A thrown bare string is answered with status 500 and no message: the
   destructuring reads `message` of a string, which is undefined.
   */
  lemma ThrownStringLosesMessage(s: string)
    ensures ErrorResponse(Str(s)) == Send(Num(500), Obj(map["message" := Undefined, "stack" := Undefined, "code" := Num(500)]))
  {
  }
}

=== FILE: ascii.dfy ===
/**
 JavaScript's `String.prototype.toUpperCase`, restricted to ASCII: the letters
 `a`..`z` become `A`..`Z` and every other character is left as it is.
 */
module Ascii {

  predicate IsLower(c: char) {
    'a' <= c <= 'z'
  }

  /** Upper-cases one character. */
  function UpperChar(c: char): (u: char)
    ensures !IsLower(u)
    ensures IsLower(c) ==> u as int == c as int - 32
    ensures !IsLower(c) ==> u == c
  {
    if IsLower(c) then (c as int - 32) as char else c
  }

  /** True iff `s` has no lower-case ASCII letter, i.e. upper-casing cannot change it. */
  predicate IsUpper(s: string) {
    forall i :: 0 <= i < |s| ==> !IsLower(s[i])
  }

  /** `s.toUpperCase()`: same length, each character upper-cased, and the result is upper case. */
  function ToUpper(s: string): (r: string)
    ensures |r| == |s|
    ensures forall i :: 0 <= i < |s| ==> r[i] == UpperChar(s[i])
    ensures IsUpper(r)
  {
    if s == [] then [] else [UpperChar(s[0])] + ToUpper(s[1..])
  }

  /** Upper-casing a string that is already upper case leaves it unchanged. */
  lemma {:induction false} UpperIsFixed(s: string)
    requires IsUpper(s)
    ensures ToUpper(s) == s
  {
    if s != [] {
      UpperIsFixed(s[1..]);
      assert s == [s[0]] + s[1..];
    }
  }

  /** Upper-casing twice is upper-casing once. */
  lemma ToUpperIdempotent(s: string)
    ensures ToUpper(ToUpper(s)) == ToUpper(s)
  {
    UpperIsFixed(ToUpper(s));
  }

  /** Two strings that differ only in the case of ASCII letters upper-case to the same string. */
  lemma ToUpperIgnoresCase(s: string, t: string)
    requires |s| == |t|
    requires forall i :: 0 <= i < |s| ==> UpperChar(s[i]) == UpperChar(t[i])
    ensures ToUpper(s) == ToUpper(t)
  {
    assert forall i :: 0 <= i < |s| ==> ToUpper(s)[i] == ToUpper(t)[i];
  }
}

=== FILE: http.dfy ===
/**
 What one request looks like to the dispatchers of both versions, what a
 handler receives, how it can finish, and what the request function does in
 the end. The raw `req`/`res` handles the handler also receives are opaque and
 left out of `Context`.
 */
module Http {
  import opened Wrappers
  import opened Js

  type Headers = map<string, string>

  /** Named path parameters, as produced by the path matcher. */
  type Params = map<string, string>

  /** The parts of the incoming request the router reads: `req.method` (here `verb`), `req.url`, `req.headers`. */
  datatype Request = Request(verb: string, url: string, headers: Headers)

  /** The object passed to a handler: `{ body, params, headers }`. */
  datatype Context = Context(body: Value, params: Params, headers: Headers)

  /** How an (awaited) handler call finishes: it returns a value or throws one. */
  datatype Outcome = Returned(value: Value) | Threw(error: Value)

  /**
   The single thing the request function ends with: one `send(res, status, body)`,
   or a rejected promise when its own `catch` block throws.
   */
  datatype Effect = Send(status: Value, body: Value) | Rejected

  /** A request's whole observable run: the context the handler was invoked with, if any, and the effect. */
  datatype Trace = Trace(invoked: Option<Context>, effect: Effect)

  /** `${req.method} ${req.url} not found`, from the raw (not upper-cased) `req.method`. */
  function NotFoundMessage(req: Request): (msg: string)
    ensures |msg| == |req.verb| + |req.url| + |" not found"| + 1
    ensures msg[..|req.verb|] == req.verb
    ensures msg[|req.verb|] == ' '
    ensures msg[|req.verb| + 1..|req.verb| + 1 + |req.url|] == req.url
    ensures msg[|req.verb| + 1 + |req.url|..] == " not found"
  {
    req.verb + " " + req.url + " not found"
  }

  /** `sendPageNotFound(req, res)`: status 404 with a body holding only the message. */
  function NotFound(req: Request): (e: Effect)
    ensures e.Send? && e.status == Num(404)
    ensures e.body.Obj? && e.body.fields.Keys == {"message"}
    ensures e.body.fields["message"] == Str(NotFoundMessage(req))
  {
    Send(Num(404), Obj(map["message" := Str(NotFoundMessage(req))]))
  }

  /** The request body the handler sees: the parsed JSON, or `{}` when `json(req)` threw. */
  function RequestBody(parsed: Option<Value>): (body: Value)
    ensures parsed.Some? ==> body == parsed.value
    ensures parsed.None? ==> body == Obj(map[])
  {
    match parsed
    case Some(v) => v
    case None => Obj(map[])
  }

  /**
   What happens once the handler has finished, common to both versions: a
   truthy value is sent with status 200 unchanged, a falsy one gets the same 404
   as a routing miss, and a thrown value goes to the version's error mapping.
   */
  function Settle(req: Request, outcome: Outcome, onError: Value -> Effect): (e: Effect)
    ensures outcome.Returned? && Truthy(outcome.value) ==> e == Send(Num(200), outcome.value)
    ensures outcome.Returned? && !Truthy(outcome.value) ==> e == NotFound(req)
    ensures outcome.Threw? ==> e == onError(outcome.error)
  {
    match outcome
    case Returned(value) => if Truthy(value) then Send(Num(200), value) else NotFound(req)
    case Threw(error) => onError(error)
  }
}

=== FILE: js.dfy ===
/**
 The JavaScript values a handler can return or throw, and the three pieces of
 JavaScript semantics the router relies on: truthiness (`if (x)`), the `||`
 operator, and reading a named property (`x.message`, `const { a } = x`).
 Numbers are modelled as integers.
 */
module Js {
  import opened Wrappers

  datatype Value =
    | Undefined
    | Null
    | Bool(b: bool)
    | Num(n: int)
    | Str(s: string)
    | Arr(items: seq<Value>)
    | Obj(fields: map<string, Value>)

  /** JavaScript truthiness: every object and array is truthy, even `{}` and `[]`. */
  predicate Truthy(v: Value) {
    match v
    case Undefined => false
    case Null => false
    case Bool(b) => b
    case Num(n) => n != 0
    case Str(s) => s != ""
    case Arr(_) => true
    case Obj(_) => true
  }

  /** The values on which reading a property raises a TypeError. */
  predicate IsNullish(v: Value) {
    v.Undefined? || v.Null?
  }

  /** The falsy values are exactly undefined, null, false, 0 and the empty string. */
  lemma FalsyValues(v: Value)
    ensures !Truthy(v) <==> v in {Undefined, Null, Bool(false), Num(0), Str("")}
  {
  }

  /**
   `v[key]` for a key that no primitive or array prototype defines (`message`,
   `stack`, `statusCode`): None when the read throws a TypeError, otherwise the
   own property of an object, or undefined.
   */
  function Get(v: Value, key: string): (r: Option<Value>)
    ensures r.None? <==> IsNullish(v)
    ensures r.Some? && !r.value.Undefined? ==> v.Obj? && key in v.fields && v.fields[key] == r.value
    ensures v.Obj? && key in v.fields ==> r == Some(v.fields[key])
    ensures !IsNullish(v) && !(v.Obj? && key in v.fields) ==> r == Some(Undefined)
  {
    match v
    case Undefined => None
    case Null => None
    case Obj(fields) => Some(if key in fields then fields[key] else Undefined)
    case _ => Some(Undefined)
  }

  /** `a || b`: the first operand when it is truthy, the second one otherwise. */
  function Or(a: Value, b: Value): (r: Value)
    ensures Truthy(r) <==> Truthy(a) || Truthy(b)
    ensures Truthy(a) ==> r == a
    ensures !Truthy(a) ==> r == b
  {
    if Truthy(a) then a else b
  }
}

=== FILE: legacy.dfy ===
/**
 The older dispatcher (index.js). Every route config is registered under its
 own id, as the route string `"<METHOD> <path>"` and as a handler; the ids are
 pairwise distinct, so they are modelled as list positions. Route lookup is
 delegated to the uniloc router, which is the parameter `locate`. The request
 lifecycle is the one of src/index.js with three differences. A routing miss
 makes the request function reject: it reads `.name` of an absent route before
 its `try`. A registered but falsy handler gets the not-found 404, where
 src/index.js would call it, throw a TypeError into its `catch` and answer 500.
 And a handler's throw of anything but null or undefined is answered with
 status 500 and a body holding only `message`; a thrown null or undefined makes
 the request function reject, as in src/index.js.
 */
module Legacy {
  import opened Wrappers
  import opened Js
  import opened Http
  import Ascii
  import opened Router
  import Api

  /** The two id-keyed objects `routes` and `handlers`. */
  datatype Registry<H> = Registry(routes: map<nat, string>, handlers: map<nat, H>)

  /** A route uniloc found: its name (the id it was registered under) and its options. */
  datatype Located = Located(name: nat, options: Params)

  /**
   The uniloc router built from the route strings, applied to a url and a
   method: None when no route string matches, the found route otherwise.
   */
  type Locator = (map<nat, string>, string, string) -> Option<Located>

  /** The route string `${method} ${routeConfig.path}`. */
  function RouteString(verb: string, path: string): (s: string)
    ensures |s| == |verb| + 1 + |path|
    ensures s[..|verb|] == Ascii.ToUpper(verb)
    ensures s[|verb|] == ' '
    ensures s[|verb| + 1..] == path
  {
    Ascii.ToUpper(verb) + " " + path
  }

  /** The registration loop over `routeConfigs`. */
  method Register<H>(configs: seq<RouteDef<H>>) returns (reg: Registry<H>)
    ensures reg.routes.Keys == reg.handlers.Keys
    ensures forall id: nat :: id in reg.routes <==> id < |configs|
    ensures reg.routes == MapOf(configs)
    ensures forall id :: 0 <= id < |configs| ==>
      && reg.routes[id] == RouteString(configs[id].verb, configs[id].path)
      && reg.handlers[id] == configs[id].handler
  {
    var routes: map<nat, string> := map[];
    var handlers: map<nat, H> := map[];
    var i := 0;
    while i < |configs|
      invariant 0 <= i <= |configs|
      invariant routes.Keys == handlers.Keys
      invariant forall id: nat :: id in routes <==> id < i
      invariant forall id :: 0 <= id < i ==>
        && routes[id] == RouteString(configs[id].verb, configs[id].path)
        && handlers[id] == configs[id].handler
    {
      var id := i;
      var verb := Ascii.ToUpper(configs[i].verb);
      routes := routes[id := verb + " " + configs[i].path];
      handlers := handlers[id := configs[i].handler];
      i := i + 1;
    }
    reg := Registry(routes, handlers);
  }

  /**
   The `catch` block: the message is the thrown value itself when it is a
   string, its `message` property otherwise; the status is always 500. Reading
   `message` of a thrown null or undefined throws again, so the request
   function rejects instead.
   */
  function ErrorResponse(error: Value): (e: Effect)
    ensures e.Rejected? <==> IsNullish(error)
    ensures e.Send? ==>
      && e.status == Num(500)
      && e.body.Obj?
      && e.body.fields.Keys == {"message"}
      && (error.Str? ==> e.body.fields["message"] == error)
      && (!error.Str? ==> e.body.fields["message"] == Get(error, "message").value)
  {
    if error.Str? then Send(Num(500), Obj(map["message" := error]))
    else
      match Get(error, "message")
      case Some(message) => Send(Num(500), Obj(map["message" := message]))
      case None => Rejected
  }

  /**
   `handlers[route.name]` followed by the test `if (!handler)`: the registered
   handler when there is one and it is truthy. `present` is JavaScript
   truthiness on handlers (a config may lack its handler).
   */
  function HandlerOf<H>(reg: Registry<H>, located: Located, present: H -> bool): (h: Option<H>)
    ensures h.Some? <==> located.name in reg.handlers && present(reg.handlers[located.name])
    ensures h.Some? ==> h.value == reg.handlers[located.name]
  {
    if located.name in reg.handlers && present(reg.handlers[located.name]) then Some(reg.handlers[located.name]) else None
  }

  /** The handler a uniloc result leads to, if any. */
  function Reached<H>(reg: Registry<H>, located: Option<Located>, present: H -> bool): Option<H> {
    if located.Some? then HandlerOf(reg, located.value, present) else None
  }

  /**
   The request function, given the uniloc result. When uniloc found nothing,
   reading `route.name` throws before the `try`, so the request function rejects
   and nothing is sent. Otherwise the handler is invoked exactly when a truthy
   one is registered under the found name, with the parsed body (or `{}`),
   uniloc's options and the headers; the answer is the not-found 404 exactly for
   a missing handler or a falsy result, 500 exactly for a throw of anything but
   null or undefined, and 200 with the value itself for a truthy result.
   */
  function Respond<H>(reg: Registry<H>, located: Option<Located>, present: H -> bool,
                      req: Request, parsed: Option<Value>, call: (H, Context) -> Outcome): (t: Trace)
    ensures located.None? ==> t == Trace(None, Rejected)
    ensures t.invoked.Some? <==> Reached(reg, located, present).Some?
    ensures t.invoked.Some? ==> t.invoked.value == Context(RequestBody(parsed), located.value.options, req.headers)
    ensures t.effect == NotFound(req) <==>
      || (located.Some? && Reached(reg, located, present).None?)
      || (Reached(reg, located, present).Some? &&
          var o := call(Reached(reg, located, present).value, t.invoked.value); o.Returned? && !Truthy(o.value))
    ensures t.effect.Rejected? <==>
      || located.None?
      || (Reached(reg, located, present).Some? &&
          var o := call(Reached(reg, located, present).value, t.invoked.value); o.Threw? && IsNullish(o.error))
    ensures t.effect.Send? ==> t.effect.status in {Num(200), Num(404), Num(500)}
    ensures t.effect.Send? && t.effect.status == Num(500) <==>
      Reached(reg, located, present).Some? &&
      var o := call(Reached(reg, located, present).value, t.invoked.value); o.Threw? && !IsNullish(o.error)
    ensures Reached(reg, located, present).Some? ==>
      var o := call(Reached(reg, located, present).value, t.invoked.value);
      && (o.Returned? && Truthy(o.value) ==> t.effect == Send(Num(200), o.value))
      && (o.Threw? ==> t.effect == ErrorResponse(o.error))
  {
    match located
    case None => Trace(None, Rejected)
    case Some(route) =>
      match HandlerOf(reg, route, present)
      case None => Trace(None, NotFound(req))
      case Some(handler) =>
        var ctx := Context(RequestBody(parsed), route.options, req.headers);
        Trace(Some(ctx), Settle(req, call(handler, ctx), ErrorResponse))
  }

  /** `microApi(routeConfigs)` applied to one request. */
  method Serve<H>(configs: seq<RouteDef<H>>, present: H -> bool, locate: Locator,
                  req: Request, parsed: Option<Value>, call: (H, Context) -> Outcome)
    returns (t: Trace)
    ensures var located := locate(MapOf(configs), req.url, req.verb);
      && (located.None? ==> t == Trace(None, Rejected))
      && (t.invoked.Some? <==>
            located.Some? && located.value.name < |configs| && present(configs[located.value.name].handler))
      && (located.Some? && t.invoked.None? ==> t.effect == NotFound(req))
      && (t.invoked.Some? ==>
            && t.invoked.value == Context(RequestBody(parsed), located.value.options, req.headers)
            && t.effect == Settle(req, call(configs[located.value.name].handler, t.invoked.value), ErrorResponse))
  {
    var reg := Register(configs);
    var located := locate(reg.routes, req.url, req.verb);
    t := Respond(reg, located, present, req, parsed, call);
  }

  /** The route strings as an id-keyed map, the value `Register` builds. */
  function MapOf<H>(configs: seq<RouteDef<H>>): (m: map<nat, string>)
    ensures forall id: nat :: id in m <==> id < |configs|
  {
    map id: nat | id < |configs| :: RouteString(configs[id].verb, configs[id].path)
  }

  /**
   A thrown error is answered with 500 even when it carries a `statusCode`;
   its `stack` is never sent.
   */
  lemma StatusCodeIgnored(message: string, stack: string, statusCode: int)
    ensures var error := Obj(map["message" := Str(message), "stack" := Str(stack), "statusCode" := Num(statusCode)]);
      ErrorResponse(error) == Send(Num(500), Obj(map["message" := Str(message)]))
  {
  }

  /**
   The two dispatchers agree whenever the same handler is reached with the same
   params: same context, same answer to a returned value, and a rejection in the
   same cases; they differ only in how a thrown value is turned into a response.
   */
  lemma AgreesWithCurrent<H>(reg: Registry<H>, located: Option<Located>, present: H -> bool, found: Option<Match<H>>,
                             req: Request, parsed: Option<Value>, call: (H, Context) -> Outcome)
    requires located.Some? && found.Some?
    requires Reached(reg, located, present) == Some(found.value.route.handler)
    requires located.value.options == found.value.params
    ensures var prior := Respond(reg, located, present, req, parsed, call);
      var cur := Api.Respond(req, found, parsed, call);
      && prior.invoked == cur.invoked
      && (prior.effect.Rejected? <==> cur.effect.Rejected?)
      && (prior.effect != cur.effect ==>
            && call(found.value.route.handler, cur.invoked.value).Threw?
            && prior.effect.Send? && prior.effect.status == Num(500))
  {
  }

  /**
   They differ on a routing miss: the current version answers the 404, while
   this one rejects without sending anything.
   */
  lemma MissRejectsUnlikeCurrent<H>(reg: Registry<H>, present: H -> bool, req: Request, parsed: Option<Value>,
                                    call: (H, Context) -> Outcome)
    ensures Respond(reg, None, present, req, parsed, call).effect == Rejected
    ensures Api.Respond(req, None, parsed, call).effect == NotFound(req)
  {
  }
}

=== FILE: router.dfy ===
/**
 The route table of `configureRouter` (src/index.js): route definitions are
 compiled once, keeping their order, and `lookup(url, method)` returns the
 first route, in declaration order, whose method equals the upper-cased
 request method and whose path matcher accepts the url.

 The path-pattern library is a parameter `pm`: `pm(pattern, url)` is None when
 the compiled `pattern` rejects `url`, and the captured parameters otherwise.
 The matcher a compiled route carries is `pm(route.path, ·)`.
 */
module Router {
  import opened Wrappers
  import opened Http
  import Ascii

  type PathMatcher = (string, string) -> Option<Params>

  /** A route as configured by the user: `{ method, path, handler }`. */
  datatype RouteDef<H> = RouteDef(verb: string, path: string, handler: H)

  /** A compiled route: the method upper-cased; path and handler kept. */
  datatype Route<H> = Route(verb: string, path: string, handler: H)

  /** A successful lookup: the route (and its position in the table) with the matcher's params. */
  datatype Match<H> = Match(index: nat, route: Route<H>, params: Params)

  /** The routes mapping of src/index.js: every definition compiled, in order. */
  function Compile<H>(defs: seq<RouteDef<H>>): (routes: seq<Route<H>>)
    ensures |routes| == |defs|
    ensures forall i :: 0 <= i < |defs| ==>
      && routes[i].verb == Ascii.ToUpper(defs[i].verb)
      && routes[i].path == defs[i].path
      && routes[i].handler == defs[i].handler
    ensures forall i :: 0 <= i < |routes| ==> Ascii.IsUpper(routes[i].verb)
  {
    seq(|defs|, i requires 0 <= i < |defs| => Route(Ascii.ToUpper(defs[i].verb), defs[i].path, defs[i].handler))
  }

  /** The test inside `routes.find`: the method is equal and the matcher accepts the url. */
  predicate Accepts<H>(r: Route<H>, pm: PathMatcher, url: string, verb: string) {
    r.verb == verb && pm(r.path, url).Some?
  }

  /**
   `m` is the first route at or after `from` that accepts (`url`, `verb`), and it
   carries exactly that route's params.
   */
  ghost predicate IsFirstMatch<H>(routes: seq<Route<H>>, pm: PathMatcher, url: string, verb: string, from: nat, m: Match<H>) {
    && from <= m.index < |routes|
    && m.route == routes[m.index]
    && m.route.verb == verb
    && pm(m.route.path, url) == Some(m.params)
    && forall j :: from <= j < m.index ==> !Accepts(routes[j], pm, url, verb)
  }

  /** At most one match is first. */
  lemma FirstMatchUnique<H>(routes: seq<Route<H>>, pm: PathMatcher, url: string, verb: string, from: nat, a: Match<H>, b: Match<H>)
    requires IsFirstMatch(routes, pm, url, verb, from, a)
    requires IsFirstMatch(routes, pm, url, verb, from, b)
    ensures a == b
  {
    if a.index < b.index {
      assert Accepts(routes[a.index], pm, url, verb);
    } else if b.index < a.index {
      assert Accepts(routes[b.index], pm, url, verb);
    }
  }

  /** First-match search of `routes[from..]` for an already upper-cased method. */
  function Scan<H>(routes: seq<Route<H>>, pm: PathMatcher, url: string, verb: string, from: nat): (res: Option<Match<H>>)
    requires from <= |routes|
    ensures res.Some? ==> IsFirstMatch(routes, pm, url, verb, from, res.value)
    ensures res.None? <==> forall j :: from <= j < |routes| ==> !Accepts(routes[j], pm, url, verb)
    decreases |routes| - from
  {
    if from == |routes| then None
    else if routes[from].verb != verb then Scan(routes, pm, url, verb, from + 1)
    else
      match pm(routes[from].path, url)
      case Some(params) => Some(Match(from, routes[from], params))
      case None => Scan(routes, pm, url, verb, from + 1)
  }

  /**
   `lookup(url, method)`: the first route, in declaration order, accepting the url
   under the upper-cased method; None exactly when no route does (in particular
   for an empty table).
   */
  function Lookup<H>(routes: seq<Route<H>>, pm: PathMatcher, url: string, verb: string): (res: Option<Match<H>>)
    ensures res.Some? ==> IsFirstMatch(routes, pm, url, Ascii.ToUpper(verb), 0, res.value)
    ensures res.None? <==> forall j :: 0 <= j < |routes| ==> !Accepts(routes[j], pm, url, Ascii.ToUpper(verb))
  {
    Scan(routes, pm, url, Ascii.ToUpper(verb), 0)
  }

  /** The loop of `routes.find`, written out; it agrees with `Lookup`. */
  method FindRoute<H>(routes: seq<Route<H>>, pm: PathMatcher, url: string, verb: string) returns (res: Option<Match<H>>)
    ensures res == Lookup(routes, pm, url, verb)
  {
    var upper := Ascii.ToUpper(verb);
    var i := 0;
    while i < |routes|
      invariant 0 <= i <= |routes|
      invariant forall j :: 0 <= j < i ==> !Accepts(routes[j], pm, url, upper)
    {
      if routes[i].verb == upper {
        var params := pm(routes[i].path, url);
        if params.Some? {
          res := Some(Match(i, routes[i], params.value));
          var expected := Lookup(routes, pm, url, verb);
          assert Accepts(routes[i], pm, url, upper);
          FirstMatchUnique(routes, pm, url, upper, 0, res.value, expected.value);
          return;
        }
      }
      i := i + 1;
    }
    res := None;
  }

  /** Lookup ignores the case of the request method. */
  lemma LookupIgnoresCase<H>(routes: seq<Route<H>>, pm: PathMatcher, url: string, verb: string)
    ensures Lookup(routes, pm, url, verb) == Lookup(routes, pm, url, Ascii.ToUpper(verb))
  {
    Ascii.ToUpperIdempotent(verb);
  }

  /**
   Lookup on a compiled table, in terms of the definitions: definition i is
   chosen exactly when its method equals the request method up to ASCII case,
   its pattern accepts the url, and no earlier definition does both.
   */
  lemma LookupCompiled<H>(defs: seq<RouteDef<H>>, pm: PathMatcher, url: string, verb: string)
    ensures var res := Lookup(Compile(defs), pm, url, verb);
      && (res.Some? ==>
            && res.value.index < |defs|
            && Ascii.ToUpper(defs[res.value.index].verb) == Ascii.ToUpper(verb)
            && pm(defs[res.value.index].path, url) == Some(res.value.params)
            && res.value.route.handler == defs[res.value.index].handler
            && forall j :: 0 <= j < res.value.index ==>
                 Ascii.ToUpper(defs[j].verb) != Ascii.ToUpper(verb) || pm(defs[j].path, url).None?)
      && (res.None? <==> forall j :: 0 <= j < |defs| ==>
            Ascii.ToUpper(defs[j].verb) != Ascii.ToUpper(verb) || pm(defs[j].path, url).None?)
  {
    var routes := Compile(defs);
    assert forall j :: 0 <= j < |defs| ==>
      (Accepts(routes[j], pm, url, Ascii.ToUpper(verb)) <==>
       Ascii.ToUpper(defs[j].verb) == Ascii.ToUpper(verb) && pm(defs[j].path, url).Some?);
  }

  /**
   Of two definitions with the same method (up to case) and the same pattern, the
   later one is never chosen: the earlier one always wins.
   */
  lemma ShadowedRouteNeverMatches<H>(defs: seq<RouteDef<H>>, i: nat, j: nat, pm: PathMatcher, url: string, verb: string)
    requires i < j < |defs|
    requires Ascii.ToUpper(defs[i].verb) == Ascii.ToUpper(defs[j].verb)
    requires defs[i].path == defs[j].path
    ensures var res := Lookup(Compile(defs), pm, url, verb);
      res.Some? ==> res.value.index != j
  {
    var routes := Compile(defs);
    assert Accepts(routes[j], pm, url, Ascii.ToUpper(verb)) ==> Accepts(routes[i], pm, url, Ascii.ToUpper(verb));
  }
}

=== FILE: scenarios.dfy ===
/**
 Worked scenarios from the repository's test suite for src/index.js, stated
 about the model of its request function.
 */
module Scenarios {
  import opened Wrappers
  import opened Js
  import opened Http
  import opened Router
  import opened Api
  import Ascii

  /**
   An example path matcher used by the scenarios below: it accepts a url only
   when it equals the pattern, capturing nothing. It stands in for path-match
   on patterns without parameters and is not part of the router.
   */
  function Literal(pattern: string, url: string): Option<Params> {
    if pattern == url then Some(map[]) else None
  }

  /** The table of the method-routing example: POST and GET routes on `/foos`, each handler a constant value. */
  function FoosTable(): seq<RouteDef<Value>> {
    [RouteDef("post", "/foos", Obj(map["name" := Str("post-foos")])),
     RouteDef("get", "/foos", Obj(map["name" := Str("get-foos")]))]
  }

  /** The handlers of the method-routing example: each returns its constant value. */
  function Constant(handler: Value, ctx: Context): Outcome {
    Returned(handler)
  }

  /** The compiled table of the method-routing example: POST first, then GET. */
  lemma FoosCompiled()
    ensures |Compile(FoosTable())| == 2
    ensures Compile(FoosTable())[0] == Route("POST", "/foos", Obj(map["name" := Str("post-foos")]))
    ensures Compile(FoosTable())[1] == Route("GET", "/foos", Obj(map["name" := Str("get-foos")]))
  {
    assert Ascii.ToUpper("post") == "POST";
    assert Ascii.ToUpper("get") == "GET";
  }

  /** The request function on the method-routing table answers as the route its lookup finds. */
  lemma FoosServe(req: Request, parsed: Option<Value>)
    ensures Serve(FoosTable(), Literal, req, parsed, Constant)
         == Respond(req, Lookup(Compile(FoosTable()), Literal, req.url, req.verb), parsed, Constant)
  {
  }

  /** Two routes on the same path are told apart by method, whatever its case in the request. */
  lemma RoutesByMethod(req: Request, parsed: Option<Value>)
    requires req.url == "/foos"
    ensures Ascii.ToUpper(req.verb) == "GET" ==>
      Serve(FoosTable(), Literal, req, parsed, Constant).effect == Send(Num(200), Obj(map["name" := Str("get-foos")]))
    ensures Ascii.ToUpper(req.verb) == "POST" ==>
      Serve(FoosTable(), Literal, req, parsed, Constant).effect == Send(Num(200), Obj(map["name" := Str("post-foos")]))
  {
    FoosCompiled();
    FoosServe(req, parsed);
    var routes := Compile(FoosTable());
    var verb := Ascii.ToUpper(req.verb);
    var found := Lookup(routes, Literal, req.url, req.verb);
    if verb == "GET" {
      assert !Accepts(routes[0], Literal, req.url, verb);
      assert Accepts(routes[1], Literal, req.url, verb);
      assert found.value.index == 1;
    } else if verb == "POST" {
      assert Accepts(routes[0], Literal, req.url, verb);
      assert found.value.index == 0;
    }
  }

  /** A path parameter as a JSON object of strings, the way a handler returning `params` sends it. */
  function ParamsObject(params: Params): (v: Value)
    ensures v.Obj? && v.fields.Keys == params.Keys
    ensures forall k :: k in params ==> v.fields[k] == Str(params[k])
  {
    Obj(map k | k in params :: Str(params[k]))
  }

  /**
   A route `GET /foos/:fooId` whose handler returns its params answers
   `GET /foos/1` with 200 and `{ fooId: "1" }`, given a path matcher that
   captures `1` for `fooId`.
   */
  lemma ParamsPassedThrough(pm: PathMatcher, headers: Headers, parsed: Option<Value>)
    requires pm("/foos/:fooId", "/foos/1") == Some(map["fooId" := "1"])
    ensures Serve([RouteDef("get", "/foos/:fooId", 0)], pm, Request("GET", "/foos/1", headers), parsed,
                  (h: int, ctx: Context) => Returned(ParamsObject(ctx.params))).effect
      == Send(Num(200), Obj(map["fooId" := Str("1")]))
  {
    var routes := Compile([RouteDef("get", "/foos/:fooId", 0)]);
    assert routes[0].verb == "GET" by { assert Ascii.ToUpper("get") == "GET"; }
    assert Ascii.ToUpper("GET") == "GET";
    assert Accepts(routes[0], pm, "/foos/1", "GET");
    assert ParamsObject(map["fooId" := "1"]) == Obj(map["fooId" := Str("1")]);
  }

  /** A handler that returns nothing for `GET /baz` gets the routing-miss 404, `GET /baz not found`. */
  lemma NothingReturnedIsNotFound(headers: Headers, parsed: Option<Value>)
    ensures Serve([RouteDef("get", "/baz", 0)], Literal, Request("GET", "/baz", headers), parsed,
                  (h: int, ctx: Context) => Returned(Undefined)).effect
      == Send(Num(404), Obj(map["message" := Str("GET /baz not found")]))
  {
    var routes := Compile([RouteDef("get", "/baz", 0)]);
    assert routes[0].verb == "GET" by { assert Ascii.ToUpper("get") == "GET"; }
    assert Ascii.ToUpper("GET") == "GET";
    assert Accepts(routes[0], Literal, "/baz", "GET");
    assert NotFoundMessage(Request("GET", "/baz", headers)) == "GET /baz not found";
  }

  /** An empty table answers `GET /fuff` with 404 and the message `GET /fuff not found`. */
  lemma EmptyTableNotFound(pm: PathMatcher, headers: Headers, parsed: Option<Value>, call: (Value, Context) -> Outcome)
    ensures Handle([], pm, Request("GET", "/fuff", headers), parsed, call)
      == Trace(None, Send(Num(404), Obj(map["message" := Str("GET /fuff not found")])))
  {
    assert NotFoundMessage(Request("GET", "/fuff", headers)) == "GET /fuff not found";
  }

  /** A handler that throws `new Error("Broken!")` yields status 500, code 500 and the message. */
  lemma BrokenRoute(stack: Value)
    ensures ErrorResponse(Obj(map["message" := Str("Broken!"), "stack" := stack]))
      == Send(Num(500), Obj(map["message" := Str("Broken!"), "stack" := stack, "code" := Num(500)]))
  {
  }

  /** A handler that throws an error with `statusCode = 400` yields status 400. */
  lemma CustomStatusCode(stack: Value)
    ensures var e := ErrorResponse(Obj(map["message" := Str("Custom 400 error."), "stack" := stack, "statusCode" := Num(400)]));
      e.Send? && e.status == Num(400) && e.body.fields["message"] == Str("Custom 400 error.")
  {
  }
}

=== FILE: wrappers.dfy ===
/** The optional-value datatype used throughout the model. */
module Wrappers {

  /** A value that may be missing: a failed parse, a route lookup that found nothing. */
  datatype Option<+T> = None | Some(value: T)
}
